=== FILE: README.md ===
# Extension sorter and Koch snowflake, modelled in Dafny

Two small recursive scripts, with their input and output stripped away:

- `copy_files.py` walks a source directory and copies every file that has
  an extension into a bucket `<destination>/<ext>/<name>`, where `ext` is
  the lower-cased suffix, unless that slot is already taken. It never
  overwrites a file that is already there. It then
  prints the destination as a tree with box-drawing connectors, framed in
  a box.
- `koch_snowflake.py` drives a turtle through the Koch curve of a given
  order, three times, to draw a snowflake.

The model replaces each effect with a value:

- The source directory is an immutable tree (`FileTree.Node`).
- The destination is a finite map from a slot `<ext>/<name>` to the
  source file copied there (`CopyFiles.Dest`).
- The tree view and the frame are sequences of lines.
- The turtle drawing is a sequence of `Forward`/`Turn` commands.
  `Koch.Run` is a turtle that carries those commands out.

Modules:

| file | module | models |
|---|---|---|
| wrappers.dfy | `Wrappers` | `Option` and `Result` |
| text.dfy | `Text` | the `str` methods the scripts use: `lower`, `lstrip`, `strip`, `split`, `join`, `ljust`, string order |
| file_tree.dfy | `FileTree` | the source tree and its depth-first walk |
| copy_files.dfy | `CopyFiles` | `copy_files_by_extension`, the source check and the destination default in `main` |
| tree_view.dfy | `TreeView` | `print_tree` |
| frame.dfy | `Frame` | `print_framed_output` |
| koch.dfy | `Koch` | `koch_curve`, `draw_koch_snowflake`, the order check in `main`, and a turtle |

Notes on the modelling:

- The order in which a directory lists its children is not fixed by the
  file system. The tree takes it as given, and every property holds for
  any order.
- When two files of the walk claim the same slot, the first one reached
  wins (`CopyFiles.FirstFileWins`). Files from different folders that
  share a name therefore collide. Which one is kept depends on the
  listing order. The model compares slot names exactly, as a
  case-sensitive file system does. On a case-insensitive destination,
  such as the default file systems of macOS and Windows, names that
  differ only in letter case also collide. On macOS, names that differ
  only in Unicode normalisation collide too.
- A stated aim of the sorter is that every file with a non-empty
  extension ends up in its bucket. The code keeps only the first of
  several same-named files in a bucket. The model follows the code, so
  every claimed slot is filled, but not every file is copied.
- `print_tree` sorts the `Path`s of one directory. The model assumes
  POSIX paths. Siblings share their parent, so sorting them is the same as
  sorting by name, code point by code point. Windows paths compare
  without regard to case, which the model does not cover. The model deep-sorts the tree first (`TreeView.Arrange`) and then
  draws it by structural recursion. This gives the same lines as sorting
  each directory when it is reached.
- Every heading the Koch turtle takes is a multiple of 60 degrees. So the
  turtle's moves are kept exactly: every move is a rational combination
  of two unit steps 60 degrees apart. The start point (-150, 90) is not
  such a combination, so a `Pose` holds the displacement from it. The model needs no trigonometry or floating
  point.

## Model

| member | source | states |
|---|---|---|
| Text.TrimStartSpec | copy_files.py:42 | `lstrip(".")` removes exactly the run of dots at the front: the result is a suffix of the input, everything cut off is a dot, and the result does not start with one |
| Text.LastIndexOfSpec | copy_files.py:42 | the last-dot search finds a dot with no dot after it, or reports -1 when the name has none |
| Text.Strip | copy_files.py:73 | `strip()` returns the slice that starts after the leading whitespace, with whitespace only after it; its ends are not whitespace; a string without surrounding whitespace is unchanged |
| Text.Split | copy_files.py:73 | `split("\n")` always yields at least one piece, and no piece contains the separator |
| Text.SplitJoin | copy_files.py:97-98 | splitting lines joined by `"\n"` gives back those lines, when there is at least one and none contains a newline |
| Text.JoinSplit | copy_files.py:97-98 | joining the pieces of a split with the separator gives back the text |
| Text.LJust | copy_files.py:77 | `ljust(width)` keeps the line as a prefix, pads with spaces only, and reaches max(width, length) |
| Text.LexLeTotal | copy_files.py:60 | any two names are ordered one way or the other, so the sort is well defined |
| FileTree.Files | copy_files.py:38-41 | the depth-first walk itself, with no contract of its own: `FileTree.FilesReach`, `FileTree.FilesOnce` and `FileTree.FilesVisitLeaves` state what it visits |
| FileTree.FilesVisitLeaves | copy_files.py:38-41 | the walk reaches each regular file of the tree as many times as it occurs as a leaf, and nothing else: no directory and no other entry |
| FileTree.FilesReach | copy_files.py:38-41 | a file is visited exactly when it lies below the walked directory and its directory names, read from there, lead down the tree to a regular file of its name |
| FileTree.FilesOnce | copy_files.py:38-41 | when no directory holds two entries of one name, every reachable file is visited exactly once and nothing else is visited |
| CopyFiles.Ext | copy_files.py:42 | the bucket of a name, with no contract of its own: `CopyFiles.ExtAtLastDot`, `CopyFiles.ExtWithoutDot`, `CopyFiles.ExtHasNoCapital`, `CopyFiles.ExtCaseBlind` and the two example lemmas state it |
| CopyFiles.ExtAtLastDot | copy_files.py:42 | the bucket is the lower-cased text after the last dot and is not empty, when that dot is strictly inside the name; a last dot at the start or end gives no bucket |
| CopyFiles.ExtHasNoCapital | copy_files.py:42 | a bucket name never holds an ASCII capital letter |
| CopyFiles.ExtCaseBlind | copy_files.py:42 | two names that differ only in the ASCII case of their letters share a bucket, so `a.JPG` and `b.jpg` both go to `jpg` |
| CopyFiles.ExtWithoutDot | copy_files.py:42-43 | a name with no dot has an empty extension |
| CopyFiles.ExtExamples | copy_files.py:42 | `a.JPG` goes to `jpg` with its name unchanged, `b.txt` to `txt`, and `archive.tar.GZ` to `gz` |
| CopyFiles.NoExtExamples | copy_files.py:42-43 | `noext` and `.bashrc` have an empty extension, so they are skipped |
| CopyFiles.CopyFile | copy_files.py:42-49 | one file: existing slots keep their files; the slot set gains the file's slot exactly when its extension is non-empty; a free slot receives the file |
| CopyFiles.CopyByExtension | copy_files.py:34-51 | the recursive walk never removes or overwrites a slot that was there before |
| CopyFiles.CopyIsFoldOverFiles | copy_files.py:38-41 | the recursive walk is the same as handling the tree's files one by one in depth-first order |
| CopyFiles.CopyAllKeys | copy_files.py:39-47 | after a list of files, the slots are the old ones plus those claimed by files with a non-empty extension, and no others |
| CopyFiles.CopyAllValues | copy_files.py:39-47 | each slot added by a list of files holds the first file of the list that claims it |
| CopyFiles.CopyAllSaturated | copy_files.py:47 | when every slot a list of files claims is taken, handling the list changes nothing |
| CopyFiles.CopyPlacement | copy_files.py:34-47 | nothing already in the destination is overwritten; every file of the tree with a non-empty extension has its slot `<lower(ext)>/<name>` filled; every new slot has a non-empty extension and holds a file of the tree whose slot it is |
| CopyFiles.FirstFileWins | copy_files.py:39-47 | a new slot holds the first file of the depth-first walk that claims it |
| CopyFiles.CopyIdempotent | copy_files.py:47 | running the walk again on the destination it produced changes nothing |
| CopyFiles.SortFiles | copy_files.py:85-93 | the run fails exactly when the source is missing or is not a directory; otherwise old slots are kept, every file of the source with a non-empty extension has its slot filled, and every new slot holds a file of the source whose slot it is |
| CopyFiles.DestinationPath | copy_files.py:83-86 | the destination is the stripped input, or `dist` when that is blank; never empty and never surrounded by whitespace |
| TreeView.Insert | copy_files.py:60 | inserting into a name-sorted listing keeps it sorted and adds exactly the new entry |
| TreeView.SortByName | copy_files.py:60 | the sorted listing is ordered by name and is a permutation of the directory's entries |
| TreeView.Arrange | copy_files.py:60-66 | arranging a subtree keeps its name, kind and number of entries, and sorts every directory in it; `TreeView.ArrangePaths` shows it moves no entry |
| TreeView.ArrangePaths | copy_files.py:60-66 | arranging a subtree keeps every entry at every depth: the same locations, names and kinds, each as often |
| TreeView.InsertPaths | copy_files.py:60 | inserting a sibling into a sorted listing adds exactly that sibling's subtree entries |
| TreeView.SortPaths | copy_files.py:60 | sorting siblings keeps the entries of their subtrees |
| TreeView.Listing | copy_files.py:60 | a directory's entries are shown sorted by name, as a permutation of its (arranged) entries |
| TreeView.ListingPaths | copy_files.py:60-66 | the siblings the listing draws hold exactly the entries below the directory, each as often |
| TreeView.Lines | copy_files.py:61-66 | drawing siblings gives one line per entry of their subtrees |
| TreeView.PrintTree | copy_files.py:53-67 | the listing has exactly one line per entry below the directory, and every line starts with the caller's prefix |
| TreeView.LinesStartWithPrefix | copy_files.py:63-66 | every line drawn under a prefix, nested lines included, starts with that prefix |
| TreeView.SiblingLine | copy_files.py:61-66 | sibling i's line is prefix + connector + name, where the connector is `└── ` exactly for the last sibling and `├── ` otherwise; its subtree's lines follow at once, under the prefix extended by four spaces for the last sibling and by `│   ` for the others |
| Frame.Longest | copy_files.py:74 | the width is the length of a longest line: no line is longer and some line has it |
| Frame.Border | copy_files.py:75-78 | a border is width + 4 characters long |
| Frame.RowShape | copy_files.py:77 | a row is width + 4 long and shows `│ `, the line, only spaces up to the width, and ` │` |
| Frame.Rows | copy_files.py:76-77 | one row per line, each width + 4 long |
| Frame.TextLines | copy_files.py:73 | the stripped text splits into at least one line, none containing a newline |
| Frame.Box | copy_files.py:74-78 | the box has n + 2 lines, all of length (longest line + 4), with the top border first, the bottom border last and the rows in order between them |
| Frame.Framed | copy_files.py:73-78 | framing text gives (number of its lines) + 2 lines, each four longer than the longest stripped line |
| Frame.FramedRowShows | copy_files.py:76-77 | each framed row shows its line left-aligned between the side rules |
| Frame.JoinedTextLines | copy_files.py:96-98 | the tree lines joined by newlines, stripped and split again, are exactly those lines, when there is at least one line, no line holds a newline and the joined text has no whitespace at its ends |
| Frame.FramedLines | copy_files.py:96-98 | framing tree lines joined by newlines boxes exactly those lines, n + 2 in all, under the same three conditions |
| Frame.FramedEmptyListing | copy_files.py:96-98 | an empty listing frames one blank row: three lines, each four wide |
| Koch.Curve | koch_snowflake.py:30-37 | `koch_curve` as the commands it gives the turtle, with no contract of its own: `Koch.CurveUnfold`, `Koch.CurveCounts`, `Koch.CurveSegmentLength` and `Koch.CurveDisplacement` state it |
| Koch.Sides | koch_snowflake.py:49-51 | the loop of `draw_koch_snowflake`, with no contract of its own: `Koch.SidesStrokes` and `Koch.SidesClose` state it |
| Koch.Snowflake | koch_snowflake.py:49-51 | the snowflake's commands, with no contract of its own: `Koch.SnowflakeCounts` and `Koch.SnowflakeCloses` state it |
| Koch.CurveUnfold | koch_snowflake.py:34-37 | a curve of positive order is four curves of one order less over a third of the length, followed by the turns 60, -120, 60 and 0 |
| Koch.CurveCounts | koch_snowflake.py:30-37 | order n draws 4^n segments and turns 4(4^n - 1)/3 times (one `Forward` and no turn at order 0), with net turn 0 |
| Koch.CurveSegmentLength | koch_snowflake.py:32-36 | every segment of the curve of order n over `size` is size / 3^n long |
| Koch.CurveOnLattice | koch_snowflake.py:35-37 | the curve turns only by multiples of 60 degrees |
| Koch.Run | koch_snowflake.py:33-37 | the turtle's final heading is the start heading plus the commands' net turn |
| Koch.FourStrokes | koch_snowflake.py:35-37 | four moves of d with the turns 60, -120, 60 and 0 end where one move of 3d ends, facing the same way |
| Koch.CurveStrokes | koch_snowflake.py:35-37 | carrying out a curve of positive order is carrying out its four sub-curves as straight moves with the turns between them |
| Koch.CurveDisplacement | koch_snowflake.py:30-37 | a Koch curve of any order ends exactly where the straight segment of the same length ends, facing the same way |
| Koch.CurveThen | koch_snowflake.py:35-37 | a curve followed by a turn acts as one straight move followed by that turn |
| Koch.SnowflakeCounts | koch_snowflake.py:49-51 | the snowflake draws 3 * 4^n segments and turns -360 degrees in all |
| Koch.SnowflakeExamples | koch_snowflake.py:49-51 | order 0 draws 3 segments and order 1 draws 12 |
| Koch.Triangle | koch_snowflake.py:49-51 | three moves, each followed by a right turn of 120 degrees, return to the start having turned a full circle |
| Koch.SidesStrokes | koch_snowflake.py:49-51 | the three sides act as three straight moves, each followed by the right turn |
| Koch.SidesClose | koch_snowflake.py:49-51 | three sides of any length and order bring the turtle back to its start, having turned -360 degrees |
| Koch.SnowflakeCloses | koch_snowflake.py:49-51 | the snowflake is closed: the turtle ends at its start, facing the same way modulo 360 degrees |
| Koch.DrawSnowflake | koch_snowflake.py:70-74 | the drawer refuses exactly the negative orders and then draws nothing; otherwise it emits 3 * 4^n segments with net turn -360 |

## Left out

- File-system effects are not modelled. These are `iterdir`, `mkdir`, `exists`, `shutil.copy2` with its metadata, `resolve()`, and writing `copy_log.txt` (copy_files.py:45, 49, 92, 101-105). The destination is only the map from slot to source file.
- The destination is an empty-or-given map, not a directory. A destination inside the source tree, which the walk would also visit, is not modelled. The tree is a fixed value.
- `CopyFiles.CopyFile` assumes that creating the bucket directory succeeds (copy_files.py:44-45). That call runs before the `try`. It fails when `<destination>/<ext>` already exists as a regular file, or when write permission is missing. The script then stops with an exception: no later file is copied, no tree is printed and no log is written. It does not print a warning and carry on.
- `CopyFiles.CopyFile` assumes a case-sensitive destination that does not normalise Unicode: the existence check at copy_files.py:47 is taken to match names exactly. On a file system that ignores case or normalisation, a later file whose name differs only in those ways is skipped. `CopyFiles.CopyPlacement`, `CopyFiles.CopyAllKeys` and `CopyFiles.FirstFileWins` would count it as copied.
- Copy failures are not modelled (copy_files.py:50-51). Every copy is taken to succeed. When `shutil.copy2` itself fails, the script prints a warning and carries on. The slot may stay empty, or may keep a partly written file that later runs skip because it exists.
- The listing order of `iterdir` is an input. It is the order of `Dir.children`.
- `CopyFiles.CopyByExtension` takes every directory of the tree to be readable, because a `Node` cannot hold an unreadable directory. Listing an unreadable subdirectory at copy_files.py:39 happens outside the `try`, so the script stops there with an uncaught `PermissionError`: no later file is copied, no tree is printed and no log is written. It does not skip the directory. `CopyFiles.CopyPlacement` and `CopyFiles.SortFiles` therefore promise placements that such a run never reaches.
- `TreeView.PrintTree` likewise takes every destination directory to be readable. On an unreadable one, the listing at copy_files.py:60 raises and ends the run before the framed tree is printed.
- `CopyFiles.ExtCaseBlind` covers ASCII letters only, following `Text.LowerChar`. Python's `lower()` also puts `a.É` and `a.é` in the bucket `é`, but the model gives them two buckets.
- `Text.LowerChar` lower-cases ASCII letters only. Python's `str.lower` covers all of Unicode.
- `Text.IsSpace` covers ASCII whitespace only. Python's `str.isspace` covers all of Unicode.
- `CopyFiles.Suffix` is pathlib's suffix rule, taken as a given. It is the text from the last dot when that dot is neither the first nor the last character, and empty otherwise. pathlib is not part of this model.
- `TreeView.PrintTree` draws the tree it is given. The model does not build that tree from the destination map, because the destination directory may hold files from earlier runs.
- `Frame.FramedLines` and `Frame.JoinedTextLines` hold only when there is at least one tree line. An empty listing frames one blank row instead (`Frame.FramedEmptyListing`).
- `Frame.FramedLines` and `Frame.JoinedTextLines` hold only when no tree line holds a newline. A file name with a newline in it, which POSIX allows, is split across rows.
- `Frame.FramedLines` and `Frame.JoinedTextLines` hold only when the joined text is not surrounded by whitespace. A last file name ending in whitespace would lose that whitespace to `strip()`.
- Printing to the console and the emoji banners are not modelled (copy_files.py:81, 89, 95, 107; koch_snowflake.py:65, 71). Functions return lines or a `Result` instead.
- Reading the paths with `input()` is not modelled (copy_files.py:82-83). `CopyFiles.SortFiles` takes the source tree, or `None` when the path does not exist.
- Reading the order with `argparse`, `input()` and `int()` is not modelled, and neither is the non-integer error path (koch_snowflake.py:56-66).
- The turtle window is not modelled: `Screen`, `title`, `speed`, `penup`/`goto`/`pendown` and `mainloop` (koch_snowflake.py:41-47, 53). `Koch.Run` starts from any pose, so the start point (-150, 90) is a parameter.
- Koch positions are exact reals, not floating point. `size / 3` is exact division.

=== FILE: copy_files.dfy ===
/** Sorting a source tree's files into extension buckets.

    The destination is a finite map from a bucket slot, `<ext>/<name>`, to
    the source file that was copied there. Creating the bucket directory and
    copying the bytes are file-system effects outside the model; what is
    kept is which file ends up in which slot. */
module CopyFiles {
  import opened Wrappers
  import opened Text
  import opened FileTree

  /** pathlib's suffix of a final path component, taken as a given rule: the
      text from the last dot on, or empty when there is no dot or the last
      dot is the first or the last character. */
  function Suffix(name: string): string
  {
    var i := LastIndexOf(name, '.');
    if 0 < i < |name| - 1 then name[i..] else ""
  }

  /** The bucket a file goes to: its suffix, lower-cased, leading dots
      stripped. */
  function Ext(name: string): string
  {
    TrimStart(Lower(Suffix(name)), '.')
  }

  /** When the last dot of a name sits strictly inside it, the bucket is the
      lower-cased text after that dot, and is not empty; a last dot at
      either end gives no bucket. */
  lemma {:induction false} ExtAtLastDot(name: string, i: nat)
    requires i < |name| && name[i] == '.'
    requires forall k :: i < k < |name| ==> name[k] != '.'
    ensures 0 < i < |name| - 1 ==> Ext(name) == Lower(name[i + 1..]) && Ext(name) != ""
    ensures i == 0 || i == |name| - 1 ==> Ext(name) == ""
  {
    LastIndexOfSpec(name, '.');
    assert LastIndexOf(name, '.') == i;
    if 0 < i < |name| - 1 {
      var t := Lower(name[i + 1..]);
      assert Lower(name[i..]) == ['.'] + t;
      assert t[0] != '.';
      assert TrimStart(['.'] + t, '.') == TrimStart(t, '.');
    }
  }

  /** A bucket name never holds an ASCII capital letter. */
  lemma ExtHasNoCapital(name: string)
    ensures forall i :: 0 <= i < |Ext(name)| ==> !('A' <= Ext(name)[i] <= 'Z')
  {
    var l := Lower(Suffix(name));
    TrimStartSpec(l, '.');
    var e := TrimStart(l, '.');
    assert e == l[|l| - |e|..];
    forall i | 0 <= i < |e| ensures !('A' <= e[i] <= 'Z') {
      assert e[i] == l[|l| - |e| + i];
    }
  }

  /** Two names that lower-case to the same text share their bucket, so
      `a.JPG` and `b.jpg` both go to `jpg`: lower-casing keeps the dots in
      place, so both names have their last dot at the same index. */
  lemma {:induction false} ExtCaseBlind(x: string, y: string)
    requires |x| == |y|
    requires forall k :: 0 <= k < |x| ==> LowerChar(x[k]) == LowerChar(y[k])
    ensures Ext(x) == Ext(y)
  {
    LastIndexOfSpec(x, '.');
    LastIndexOfSpec(y, '.');
    var i, j := LastIndexOf(x, '.'), LastIndexOf(y, '.');
    assert forall k :: 0 <= k < |x| ==> (x[k] == '.' <==> y[k] == '.') by {
      forall k | 0 <= k < |x| ensures x[k] == '.' <==> y[k] == '.' {
        assert LowerChar(x[k]) == LowerChar(y[k]);
      }
    }
    assert i == j;
    if 0 < i < |x| - 1 {
      assert Lower(x[i..]) == Lower(y[i..]) by {
        forall k | 0 <= k < |x| - i ensures Lower(x[i..])[k] == Lower(y[i..])[k] {
          assert LowerChar(x[i + k]) == LowerChar(y[i + k]);
        }
      }
    }
  }

  /** A name without any dot has no bucket. */
  lemma {:induction false} ExtWithoutDot(name: string)
    requires forall k :: 0 <= k < |name| ==> name[k] != '.'
    ensures Ext(name) == ""
  {
    LastIndexOfSpec(name, '.');
  }

  /** A slot in the destination: the file `<ext>/<name>`. */
  datatype Target = Target(ext: string, name: string)

  type Dest = map<Target, SrcFile>

  /** Files with an empty extension are skipped. */
  predicate Eligible(f: SrcFile)
  {
    Ext(f.name) != ""
  }

  /** The slot a file is copied to: its bucket, and its name unchanged. */
  function TargetOf(f: SrcFile): Target
  {
    Target(Ext(f.name), f.name)
  }

  /** Handle one file of the walk: skip it when its extension is empty or
      its slot is already taken, copy it otherwise. */
  function CopyFile(f: SrcFile, dst: Dest): (r: Dest)
    ensures forall k :: k in dst ==> k in r && r[k] == dst[k]
    ensures r.Keys == if Eligible(f) then dst.Keys + {TargetOf(f)} else dst.Keys
    ensures Eligible(f) && TargetOf(f) !in dst ==> r[TargetOf(f)] == f
  {
    if !Eligible(f) then dst
    else if TargetOf(f) in dst then dst
    else dst[TargetOf(f) := f]
  }

  /** The recursive walk: a directory is recursed into, child by child in
      listing order; a regular file is copied; anything else is ignored.
      `dir` is the path of the directory that holds `n`. An existing slot is
      never overwritten. */
  function CopyByExtension(n: Node, dir: seq<string>, dst: Dest): (r: Dest)
    ensures forall k :: k in dst ==> k in r && r[k] == dst[k]
    decreases n
  {
    match n
    case Dir(name, kids) => CopyChildren(kids, dir + [name], dst)
    case File(name) => CopyFile(SrcFile(dir, name), dst)
    case Special(_) => dst
  }

  function CopyChildren(kids: seq<Node>, dir: seq<string>, dst: Dest): (r: Dest)
    ensures forall k :: k in dst ==> k in r && r[k] == dst[k]
    decreases kids
  {
    if |kids| == 0 then dst
    else CopyChildren(kids[1..], dir, CopyByExtension(kids[0], dir, dst))
  }

  /** Copying a list of files one after the other. */
  function CopyAll(fs: seq<SrcFile>, dst: Dest): (r: Dest)
    ensures forall k :: k in dst ==> k in r && r[k] == dst[k]
  {
    if |fs| == 0 then dst else CopyAll(fs[1..], CopyFile(fs[0], dst))
  }

  lemma {:induction false} CopyAllAppend(a: seq<SrcFile>, b: seq<SrcFile>, dst: Dest)
    ensures CopyAll(a + b, dst) == CopyAll(b, CopyAll(a, dst))
    decreases |a|
  {
    if |a| > 0 {
      assert (a + b)[0] == a[0];
      assert (a + b)[1..] == a[1..] + b;
      CopyAllAppend(a[1..], b, CopyFile(a[0], dst));
    } else {
      assert a + b == b;
    }
  }

  /** The recursive walk is the same as copying the tree's files in
      depth-first order. */
  lemma {:induction false} CopyIsFoldOverFiles(n: Node, dir: seq<string>, dst: Dest)
    ensures CopyByExtension(n, dir, dst) == CopyAll(Files(n, dir), dst)
    decreases n
  {
    match n
    case Dir(name, kids) => CopyChildrenIsFoldOverFiles(kids, dir + [name], dst);
    case File(name) =>
    case Special(_) =>
  }

  lemma {:induction false} CopyChildrenIsFoldOverFiles(kids: seq<Node>, dir: seq<string>, dst: Dest)
    ensures CopyChildren(kids, dir, dst) == CopyAll(FilesIn(kids, dir), dst)
    decreases kids
  {
    if |kids| > 0 {
      var d1 := CopyByExtension(kids[0], dir, dst);
      CopyIsFoldOverFiles(kids[0], dir, dst);
      CopyChildrenIsFoldOverFiles(kids[1..], dir, d1);
      CopyAllAppend(Files(kids[0], dir), FilesIn(kids[1..], dir), dst);
    }
  }

  /** The slots the eligible files of a list claim. */
  function Targets(fs: seq<SrcFile>): set<Target>
  {
    set f | f in fs && Eligible(f) :: TargetOf(f)
  }

  lemma TargetsCons(fs: seq<SrcFile>)
    requires |fs| > 0
    ensures Targets(fs) == (if Eligible(fs[0]) then {TargetOf(fs[0])} else {}) + Targets(fs[1..])
  {
  }

  /** Index of the first eligible file of `fs` that claims slot `k`, or
      `|fs|` when none does. */
  function FirstFor(fs: seq<SrcFile>, k: Target): (i: nat)
    ensures i <= |fs|
    ensures forall j :: 0 <= j < i ==> !(Eligible(fs[j]) && TargetOf(fs[j]) == k)
    ensures i < |fs| ==> Eligible(fs[i]) && TargetOf(fs[i]) == k
  {
    if |fs| == 0 then 0
    else if Eligible(fs[0]) && TargetOf(fs[0]) == k then 0
    else
      var i := FirstFor(fs[1..], k);
      assert forall j :: 1 <= j <= i ==> fs[j] == fs[1..][j - 1];
      1 + i
  }

  /** Copying a list of files leaves the old slots and adds a slot for every
      slot an eligible file claims, and nothing more. */
  lemma {:induction false} CopyAllKeys(fs: seq<SrcFile>, dst: Dest)
    ensures CopyAll(fs, dst).Keys == dst.Keys + Targets(fs)
    decreases |fs|
  {
    if |fs| == 0 {
      assert Targets(fs) == {};
    } else {
      var d1 := CopyFile(fs[0], dst);
      assert CopyAll(fs, dst) == CopyAll(fs[1..], d1);
      CopyAllKeys(fs[1..], d1);
      TargetsCons(fs);
    }
  }

  /** Each slot that copying a list of files adds holds the first file
      that claimed it. */
  lemma {:induction false} CopyAllValues(fs: seq<SrcFile>, dst: Dest)
    ensures forall k :: k in CopyAll(fs, dst) && k !in dst ==>
              FirstFor(fs, k) < |fs| && CopyAll(fs, dst)[k] == fs[FirstFor(fs, k)]
    decreases |fs|
  {
    if |fs| > 0 {
      var f := fs[0];
      var rest := fs[1..];
      var d1 := CopyFile(f, dst);
      var r := CopyAll(rest, d1);
      assert CopyAll(fs, dst) == r;
      CopyAllValues(rest, d1);
      forall k | k in r && k !in dst
        ensures FirstFor(fs, k) < |fs| && r[k] == fs[FirstFor(fs, k)]
      {
        FirstClaim(fs, dst, k);
      }
    }
  }

  /** One step of `CopyAllValues`: a slot new after the whole list is
      either the first file's, or goes to the first claimant in the rest. */
  lemma FirstClaim(fs: seq<SrcFile>, dst: Dest, k: Target)
    requires |fs| > 0 && k !in dst
    ensures k in CopyFile(fs[0], dst) ==> FirstFor(fs, k) == 0 && CopyFile(fs[0], dst)[k] == fs[0]
    ensures k !in CopyFile(fs[0], dst) ==> FirstFor(fs, k) == 1 + FirstFor(fs[1..], k)
  {
  }

  /** Once every slot a list claims is taken, copying the list again
      changes nothing. */
  lemma {:induction false} CopyAllSaturated(fs: seq<SrcFile>, dst: Dest)
    requires Targets(fs) <= dst.Keys
    ensures CopyAll(fs, dst) == dst
    decreases |fs|
  {
    if |fs| > 0 {
      if Eligible(fs[0]) {
        assert TargetOf(fs[0]) in Targets(fs);
      }
      assert Targets(fs[1..]) <= Targets(fs) by {
        forall t | t in Targets(fs[1..]) ensures t in Targets(fs) {
          var g :| g in fs[1..] && Eligible(g) && TargetOf(g) == t;
          assert g in fs;
        }
      }
      CopyAllSaturated(fs[1..], dst);
    }
  }

  /** Where the walk puts files. Nothing already in the destination is
      overwritten; every regular file of the tree with a non-empty
      extension has its slot `<lower-cased extension>/<original name>`
      filled; every new slot has a non-empty extension and holds a file of
      the tree whose slot it is, so directories, special entries and files
      without an extension are never placed. */
  lemma {:induction false} CopyPlacement(n: Node, dir: seq<string>, dst: Dest)
    ensures forall k :: k in dst ==>
              k in CopyByExtension(n, dir, dst) && CopyByExtension(n, dir, dst)[k] == dst[k]
    ensures forall f :: Leaves(f, n, dir) > 0 && Eligible(f) ==> TargetOf(f) in CopyByExtension(n, dir, dst)
    ensures forall k :: k in CopyByExtension(n, dir, dst) && k !in dst ==>
              var f := CopyByExtension(n, dir, dst)[k];
              k.ext != "" && Eligible(f) && TargetOf(f) == k && Leaves(f, n, dir) > 0
  {
    var fs := Files(n, dir);
    var r := CopyByExtension(n, dir, dst);
    CopyIsFoldOverFiles(n, dir, dst);
    CopyAllKeys(fs, dst);
    CopyAllValues(fs, dst);
    forall f | Leaves(f, n, dir) > 0 && Eligible(f) ensures TargetOf(f) in r {
      FilesVisitLeaves(n, dir, f);
      assert TargetOf(f) in Targets(fs);
    }
    forall k | k in r && k !in dst
      ensures k.ext != "" && Eligible(r[k]) && TargetOf(r[k]) == k && Leaves(r[k], n, dir) > 0
    {
      FilesVisitLeaves(n, dir, r[k]);
    }
  }

  /** Which file lands in a slot that two files claim depends only on the
      order of the walk: the first one reached wins. */
  lemma {:induction false} FirstFileWins(n: Node, dir: seq<string>, dst: Dest, k: Target)
    ensures k in CopyByExtension(n, dir, dst) && k !in dst ==>
              FirstFor(Files(n, dir), k) < |Files(n, dir)|
              && CopyByExtension(n, dir, dst)[k] == Files(n, dir)[FirstFor(Files(n, dir), k)]
  {
    CopyIsFoldOverFiles(n, dir, dst);
    CopyAllValues(Files(n, dir), dst);
  }

  /** Running the walk again over the same source, into the destination
      the first run produced, adds no slot and changes none. */
  lemma {:induction false} CopyIdempotent(n: Node, dir: seq<string>, dst: Dest)
    ensures CopyByExtension(n, dir, CopyByExtension(n, dir, dst)) == CopyByExtension(n, dir, dst)
  {
    var fs := Files(n, dir);
    var r := CopyByExtension(n, dir, dst);
    CopyIsFoldOverFiles(n, dir, dst);
    CopyIsFoldOverFiles(n, dir, r);
    CopyAllKeys(fs, dst);
    CopyAllValues(fs, dst);
    CopyAllSaturated(fs, r);
  }

  /** Why the sorter refused to start. */
  datatype SortError = InvalidSource   // the source does not exist or is not a directory

  /** The script's entry point once the paths are read: a source that is
      missing (`None`) or not a directory is refused before anything is
      copied; otherwise its tree is walked into the destination. */
  function SortFiles(src: Option<Node>, dst: Dest): (r: Result<Dest, SortError>)
    ensures r.Failure? <==> !(src.Some? && src.value.Dir?)
    ensures r.Success? ==> forall k :: k in dst ==> k in r.value && r.value[k] == dst[k]
    ensures r.Success? ==> forall f :: Leaves(f, src.value, []) > 0 && Eligible(f) ==> TargetOf(f) in r.value
    ensures r.Success? ==> forall k :: k in r.value && k !in dst ==>
              Eligible(r.value[k]) && TargetOf(r.value[k]) == k && Leaves(r.value[k], src.value, []) > 0
  {
    match src
    case Some(n) =>
      if n.Dir? then
        CopyPlacement(n, [], dst);
        Success(CopyByExtension(n, [], dst))
      else Failure(InvalidSource)
    case None => Failure(InvalidSource)
  }

  /** The destination path typed by the user, with surrounding whitespace
      removed; a blank answer means `dist`. */
  function DestinationPath(input: string): (r: string)
    ensures |r| > 0 && !IsSpace(r[0]) && !IsSpace(r[|r| - 1])
    ensures Strip(input) != "" ==> r == Strip(input)
    ensures Strip(input) == "" ==> r == "dist"
  {
    var t := Strip(input);
    if t == "" then "dist" else t
  }

  /** The bucket keeps the last suffix only, lower-cased. */
  lemma ExtExamples()
    ensures Ext("a.JPG") == "jpg"
    ensures Ext("b.txt") == "txt"
    ensures Ext("archive.tar.GZ") == "gz"
  {
    ExtAtLastDot("a.JPG", 1);
    assert "a.JPG"[2..] == "JPG";
    assert Lower("JPG") == "jpg";
    ExtAtLastDot("b.txt", 1);
    assert "b.txt"[2..] == "txt";
    assert Lower("txt") == "txt";
    ExtAtLastDot("archive.tar.GZ", 11);
    assert "archive.tar.GZ"[12..] == "GZ";
    assert Lower("GZ") == "gz";
  }

  /** A name without a dot, or whose only dot leads it, has no bucket. */
  lemma NoExtExamples()
    ensures Ext("noext") == ""
    ensures Ext(".bashrc") == ""
  {
    ExtWithoutDot("noext");
    ExtAtLastDot(".bashrc", 0);
  }
}

=== FILE: file_tree.dfy ===
/** The source directory tree the sorter walks, as an immutable value.
    The order of a directory's children is the order the directory listing
    returned them in; the file system does not fix that order, so every
    property below holds for whatever order is given. */
module FileTree {

  datatype Node =
    | File(name: string)                       // a regular file
    | Dir(name: string, children: seq<Node>)   // a directory and its listing
    | Special(name: string)                    // neither: a dangling link, a socket, ...

  /** A file found by the walk: the names of the directories leading to it,
      from the root that was walked, and its own name. */
  datatype SrcFile = SrcFile(dir: seq<string>, name: string)

  /** The files of `n`, in the depth-first order the walk reaches them;
      `dir` is the path of the directory holding `n`. */
  function Files(n: Node, dir: seq<string>): seq<SrcFile>
    decreases n
  {
    match n
    case File(name) => [SrcFile(dir, name)]
    case Dir(name, kids) => FilesIn(kids, dir + [name])
    case Special(_) => []
  }

  function FilesIn(kids: seq<Node>, dir: seq<string>): seq<SrcFile>
    decreases kids
  {
    if |kids| == 0 then [] else Files(kids[0], dir) + FilesIn(kids[1..], dir)
  }

  /** How many regular-file leaves of `n` sit at location `f`: one for an
      ordinary tree, where sibling names are distinct. */
  function Leaves(f: SrcFile, n: Node, dir: seq<string>): nat
    decreases n
  {
    match n
    case File(name) => if f == SrcFile(dir, name) then 1 else 0
    case Dir(name, kids) => LeavesIn(f, kids, dir + [name])
    case Special(_) => 0
  }

  function LeavesIn(f: SrcFile, kids: seq<Node>, dir: seq<string>): nat
    decreases kids
  {
    if |kids| == 0 then 0 else Leaves(f, kids[0], dir) + LeavesIn(f, kids[1..], dir)
  }

  /** The walk reaches every regular file exactly once per leaf that holds
      it, and reaches nothing else: directories and special entries never
      appear among the visited files. */
  lemma {:induction false} FilesVisitLeaves(n: Node, dir: seq<string>, f: SrcFile)
    ensures multiset(Files(n, dir))[f] == Leaves(f, n, dir)
    ensures f in Files(n, dir) <==> Leaves(f, n, dir) > 0
    decreases n
  {
    match n
    case File(name) =>
    case Dir(name, kids) => FilesInVisitLeaves(kids, dir + [name], f);
    case Special(_) =>
  }

  lemma {:induction false} FilesInVisitLeaves(kids: seq<Node>, dir: seq<string>, f: SrcFile)
    ensures multiset(FilesIn(kids, dir))[f] == LeavesIn(f, kids, dir)
    decreases kids
  {
    if |kids| > 0 {
      FilesVisitLeaves(kids[0], dir, f);
      FilesInVisitLeaves(kids[1..], dir, f);
      assert multiset(FilesIn(kids, dir)) == multiset(Files(kids[0], dir)) + multiset(FilesIn(kids[1..], dir));
    }
  }

  /** `f` lies at or below the directory `dir`. */
  predicate Under(dir: seq<string>, f: SrcFile)
  {
    |dir| <= |f.dir| && f.dir[..|dir|] == dir
  }

  /** Following the directory names `rel` down from `n` ends at a regular
      file called `name`: `n` itself when `rel` is empty, otherwise a child
      of the directory `n` named `rel[0]`. */
  predicate Reaches(n: Node, rel: seq<string>, name: string)
    decreases n
  {
    match n
    case File(nm) => rel == [] && nm == name
    case Dir(nm, kids) =>
      |rel| > 0 && rel[0] == nm && exists i :: 0 <= i < |kids| && Reaches(kids[i], rel[1..], name)
    case Special(_) => false
  }

  /** The walk yields exactly the files found by following a path down the
      tree: `f` is visited if and only if it lies below `dir` and its
      directory names, read from there, lead through `n` to a regular file
      named `f.name`. */
  lemma {:induction false} FilesReach(n: Node, dir: seq<string>, f: SrcFile)
    ensures f in Files(n, dir) <==> Under(dir, f) && Reaches(n, f.dir[|dir|..], f.name)
    decreases n
  {
    match n
    case File(nm) =>
      if f.dir == dir {
        assert f.dir[|dir|..] == [];
      }
    case Dir(nm, kids) =>
      var d := dir + [nm];
      FilesInReach(kids, d, f);
      if Under(d, f) {
        var rel := f.dir[|dir|..];
        assert f.dir[..|dir|] == d[..|dir|];
        assert rel[0] == f.dir[|dir|] == nm;
        assert f.dir[|d|..] == rel[1..];
      }
      if Under(dir, f) && |f.dir[|dir|..]| > 0 && f.dir[|dir|..][0] == nm {
        var rel := f.dir[|dir|..];
        assert f.dir[..|d|] == f.dir[..|dir|] + [f.dir[|dir|]];
        assert f.dir[|d|..] == rel[1..];
      }
    case Special(_) =>
  }

  lemma {:induction false} FilesInReach(kids: seq<Node>, dir: seq<string>, f: SrcFile)
    ensures f in FilesIn(kids, dir)
        <==> Under(dir, f) && exists i :: 0 <= i < |kids| && Reaches(kids[i], f.dir[|dir|..], f.name)
    decreases kids
  {
    if |kids| > 0 {
      FilesReach(kids[0], dir, f);
      FilesInReach(kids[1..], dir, f);
      if Under(dir, f) && (exists i :: 0 <= i < |kids| && Reaches(kids[i], f.dir[|dir|..], f.name)) {
        var i :| 0 <= i < |kids| && Reaches(kids[i], f.dir[|dir|..], f.name);
        if i > 0 {
          assert kids[1..][i - 1] == kids[i];
        }
      }
    }
  }

  /** No directory of the subtree holds two entries of the same name, as
      in any real file system. */
  predicate DistinctNames(n: Node)
    decreases n
  {
    n.Dir? ==> DistinctSiblings(n.children) && forall i :: 0 <= i < |n.children| ==> DistinctNames(n.children[i])
  }

  predicate DistinctSiblings(kids: seq<Node>)
  {
    forall i, j :: 0 <= i < j < |kids| ==> kids[i].name != kids[j].name
  }

  /** Two entries reached along the same path carry the same name. */
  lemma SameName(a: Node, b: Node, rel: seq<string>, name: string)
    requires Reaches(a, rel, name) && Reaches(b, rel, name)
    ensures a.name == b.name
  {
  }

  /** In a tree without duplicate sibling names, the walk visits every file
      it can reach exactly once, and no other. */
  lemma FilesOnce(n: Node, dir: seq<string>, f: SrcFile)
    requires DistinctNames(n)
    ensures multiset(Files(n, dir))[f] == if Under(dir, f) && Reaches(n, f.dir[|dir|..], f.name) then 1 else 0
  {
    FilesVisitLeaves(n, dir, f);
    FilesReach(n, dir, f);
    LeavesOnce(n, dir, f);
  }

  lemma {:induction false} LeavesOnce(n: Node, dir: seq<string>, f: SrcFile)
    requires DistinctNames(n)
    ensures Leaves(f, n, dir) <= 1
    decreases n
  {
    if n.Dir? {
      LeavesInOnce(n.children, dir + [n.name], f);
    }
  }

  lemma {:induction false} LeavesInOnce(kids: seq<Node>, dir: seq<string>, f: SrcFile)
    requires DistinctSiblings(kids)
    requires forall i :: 0 <= i < |kids| ==> DistinctNames(kids[i])
    ensures LeavesIn(f, kids, dir) <= 1
    decreases kids
  {
    if |kids| > 0 {
      var rest := kids[1..];
      assert forall j :: 0 <= j < |rest| ==> rest[j] == kids[j + 1];
      LeavesOnce(kids[0], dir, f);
      LeavesInOnce(rest, dir, f);
      if Leaves(f, kids[0], dir) > 0 && LeavesIn(f, rest, dir) > 0 {
        FilesVisitLeaves(kids[0], dir, f);
        FilesReach(kids[0], dir, f);
        FilesInVisitLeaves(rest, dir, f);
        FilesInReach(rest, dir, f);
        var j :| 0 <= j < |rest| && Reaches(rest[j], f.dir[|dir|..], f.name);
        SameName(kids[0], kids[j + 1], f.dir[|dir|..], f.name);
        assert false;
      }
    }
  }
}

=== FILE: frame.dfy ===
/** Framing the tree listing in a box: every row padded to the widest line
    and closed by a border. The framed rows are returned instead of
    printed. */
module Frame {
  import opened Text

  /** Length of the longest line: none is longer and, when there are lines,
      one has exactly this length. */
  function Longest(lines: seq<string>): (w: nat)
    ensures forall i :: 0 <= i < |lines| ==> |lines[i]| <= w
    ensures |lines| > 0 ==> exists i :: 0 <= i < |lines| && |lines[i]| == w
  {
    if |lines| == 0 then 0
    else
      var m := Longest(lines[1..]);
      if |lines[0]| >= m then |lines[0]| else m
  }

  /** A horizontal border `width + 2` rules wide between two corners. */
  function Border(left: char, right: char, width: nat): (r: string)
    ensures |r| == width + 4
  {
    [left] + Repeat('─', width + 2) + [right]
  }

  /** One framed row: the line padded with spaces to `width`. */
  function Row(line: string, width: nat): string
  {
    "│ " + LJust(line, width) + " │"
  }

  /** A row is four longer than the width it pads to, and shows its line
      between the side rules with nothing but spaces after it. */
  lemma RowShape(line: string, width: nat)
    requires |line| <= width
    ensures |Row(line, width)| == width + 4
    ensures Row(line, width)[..2] == "│ "
    ensures Row(line, width)[2..2 + |line|] == line
    ensures forall k :: 2 + |line| <= k < width + 2 ==> Row(line, width)[k] == ' '
    ensures Row(line, width)[width + 2..] == " │"
  {
  }

  function Rows(lines: seq<string>, width: nat): (r: seq<string>)
    requires forall i :: 0 <= i < |lines| ==> |lines[i]| <= width
    ensures |r| == |lines|
    ensures forall i :: 0 <= i < |r| ==> r[i] == Row(lines[i], width) && |r[i]| == width + 4
  {
    forall i | 0 <= i < |lines| ensures |Row(lines[i], width)| == width + 4 {
      RowShape(lines[i], width);
    }
    seq(|lines|, i requires 0 <= i < |lines| => Row(lines[i], width))
  }

  /** The lines of the text, once the whitespace around the whole text is
      stripped: never empty, since splitting always yields a line. */
  function TextLines(text: string): (lines: seq<string>)
    ensures |lines| >= 1
    ensures forall i :: 0 <= i < |lines| ==> '\n' !in lines[i]
  {
    Split(Strip(text), '\n')
  }

  /** The box around some lines: a top border, one row per line, a bottom
      border, all of them four longer than the longest line. */
  function Box(lines: seq<string>): (r: seq<string>)
    ensures |r| == |lines| + 2
    ensures forall i :: 0 <= i < |r| ==> |r[i]| == Longest(lines) + 4
    ensures r[0] == Border('┌', '┐', Longest(lines))
    ensures r[|r| - 1] == Border('└', '┘', Longest(lines))
    ensures forall i :: 0 <= i < |lines| ==> r[i + 1] == Row(lines[i], Longest(lines))
  {
    var w := Longest(lines);
    var rows := Rows(lines, w);
    Framing(Border('┌', '┐', w), rows, Border('└', '┘', w), w + 4);
    [Border('┌', '┐', w)] + rows + [Border('└', '┘', w)]
  }

  /** Rows between a top and a bottom line, all of one length. */
  lemma Framing(top: string, rows: seq<string>, bottom: string, n: nat)
    requires |top| == n && |bottom| == n
    requires forall i :: 0 <= i < |rows| ==> |rows[i]| == n
    ensures |[top] + rows + [bottom]| == |rows| + 2
    ensures forall i :: 0 <= i < |rows| + 2 ==> |([top] + rows + [bottom])[i]| == n
    ensures ([top] + rows + [bottom])[0] == top
    ensures ([top] + rows + [bottom])[|rows| + 1] == bottom
    ensures forall i :: 0 <= i < |rows| ==> ([top] + rows + [bottom])[i + 1] == rows[i]
  {
  }

  /** The framed text: the box around the lines of the stripped text. */
  function Framed(text: string): (r: seq<string>)
    ensures |r| == |TextLines(text)| + 2
    ensures forall i :: 0 <= i < |r| ==> |r[i]| == Longest(TextLines(text)) + 4
  {
    Box(TextLines(text))
  }

  /** Each row of the frame shows its line, left-aligned, with only spaces
      up to the right rule. */
  lemma FramedRowShows(text: string, i: nat)
    ensures i < |TextLines(text)| ==>
            var line, row := TextLines(text)[i], Framed(text)[i + 1];
            && row[..2] == "│ "
            && row[2..2 + |line|] == line
            && (forall k :: 2 + |line| <= k < |row| - 2 ==> row[k] == ' ')
            && row[|row| - 2..] == " │"
  {
    if i < |TextLines(text)| {
      var lines := TextLines(text);
      assert Framed(text)[i + 1] == Row(lines[i], Longest(lines));
      RowShape(lines[i], Longest(lines));
    }
  }

  lemma {:induction false} JoinFirst(parts: seq<string>, sep: char)
    requires |parts| >= 1 && |parts[0]| > 0
    ensures |Join(parts, sep)| > 0 && Join(parts, sep)[0] == parts[0][0]
  {
  }

  lemma {:induction false} JoinLast(parts: seq<string>, sep: char)
    requires |parts| >= 1 && |parts[|parts| - 1]| > 0
    ensures |Join(parts, sep)| >= |parts[|parts| - 1]|
    ensures Join(parts, sep)[|Join(parts, sep)| - 1] == parts[|parts| - 1][|parts[|parts| - 1]| - 1]
    decreases |parts|
  {
    if |parts| > 1 {
      JoinLast(parts[1..], sep);
    }
  }

  /** The tree lines joined by newlines, as the sorter does, split back
      into exactly those lines once stripped, when the joined text has no
      whitespace at its two ends for the strip to remove. */
  lemma JoinedTextLines(ls: seq<string>)
    requires |ls| >= 1
    requires forall i :: 0 <= i < |ls| ==> '\n' !in ls[i]
    requires |ls[0]| > 0 && !IsSpace(ls[0][0])
    requires |ls[|ls| - 1]| > 0 && !IsSpace(ls[|ls| - 1][|ls[|ls| - 1]| - 1])
    ensures TextLines(Join(ls, '\n')) == ls
  {
    JoinFirst(ls, '\n');
    JoinLast(ls, '\n');
    SplitJoin(ls, '\n');
  }

  /** So framing the joined tree lines shows every tree line in its own
      row, in order. */
  lemma FramedLines(ls: seq<string>)
    requires |ls| >= 1
    requires forall i :: 0 <= i < |ls| ==> '\n' !in ls[i]
    requires |ls[0]| > 0 && !IsSpace(ls[0][0])
    requires |ls[|ls| - 1]| > 0 && !IsSpace(ls[|ls| - 1][|ls[|ls| - 1]| - 1])
    ensures |Framed(Join(ls, '\n'))| == |ls| + 2
    ensures Framed(Join(ls, '\n')) == Box(ls)
  {
    JoinedTextLines(ls);
  }

  /** An empty listing still frames one blank row: splitting the empty
      text yields one empty line, so the box has three lines, each four
      wide. */
  lemma FramedEmptyListing()
    ensures Framed(Join([], '\n')) == Box([""])
    ensures |Framed(Join([], '\n'))| == 3
    ensures forall i :: 0 <= i < 3 ==> |Framed(Join([], '\n'))[i]| == 4
  {
  }
}

=== FILE: koch.dfy ===
/** The Koch snowflake drawer with the turtle replaced by the commands it
    would receive.

    Every heading the drawer ever takes is a multiple of 60 degrees, so the
    turtle's position can be tracked exactly: a `Pose` keeps it in the basis
    made of the unit step along heading 0 and the unit step along heading
    60, 60 degrees to its left. */
module Koch {
  import opened Wrappers

  /** A turtle command: go forward, or turn left by some degrees (a right
      turn is a negative left turn). */
  datatype Command = Forward(distance: real) | Turn(degrees: int)

  /** The turns taken after each of the four sub-curves. */
  const Angles: seq<int> := [60, -120, 60, 0]

  /** Length of each side of the snowflake. */
  const Side: real := 300.0

  /** The Koch curve of `order` over a segment of length `size`: a straight
      move at order 0, otherwise four curves of one order less over a third
      of the length, each followed by its turn from `Angles`. */
  function Curve(order: nat, size: real): seq<Command>
    decreases order, 0
  {
    if order == 0 then [Forward(size)]
    else Steps(order - 1, size / 3.0, Angles)
  }

  /** The loop over the turn angles: a sub-curve, then the turn. */
  function Steps(order: nat, size: real, angles: seq<int>): seq<Command>
    decreases order, |angles|
  {
    if |angles| == 0 then []
    else Curve(order, size) + [Turn(angles[0])] + Steps(order, size, angles[1..])
  }

  /** The three sides of the snowflake, each followed by a right turn of 120
      degrees. */
  function Snowflake(order: nat): seq<Command>
  {
    Sides(order, Side, 3)
  }

  /** `n` curves of `order` over `size`, each followed by a right turn of
      120 degrees. */
  function Sides(order: nat, size: real, n: nat): seq<Command>
  {
    if n == 0 then [] else Curve(order, size) + [Turn(-120)] + Sides(order, size, n - 1)
  }

  datatype OrderError = NegativeOrder

  function Pow(b: nat, n: nat): (r: nat)
    requires b >= 1
    ensures r >= 1
  {
    if n == 0 then 1 else b * Pow(b, n - 1)
  }

  /** Number of forward moves, that is of segments drawn. */
  function Forwards(cmds: seq<Command>): nat
  {
    if |cmds| == 0 then 0 else (if cmds[0].Forward? then 1 else 0) + Forwards(cmds[1..])
  }

  /** Number of turns. */
  function Turns(cmds: seq<Command>): nat
  {
    if |cmds| == 0 then 0 else (if cmds[0].Turn? then 1 else 0) + Turns(cmds[1..])
  }

  /** Total left turning, in degrees. */
  function NetTurn(cmds: seq<Command>): int
  {
    if |cmds| == 0 then 0 else (if cmds[0].Turn? then cmds[0].degrees else 0) + NetTurn(cmds[1..])
  }

  lemma {:induction false} CountsAppend(x: seq<Command>, y: seq<Command>)
    ensures Forwards(x + y) == Forwards(x) + Forwards(y)
    ensures Turns(x + y) == Turns(x) + Turns(y)
    ensures NetTurn(x + y) == NetTurn(x) + NetTurn(y)
    decreases |x|
  {
    if |x| == 0 {
      assert x + y == y;
    } else {
      assert (x + y)[0] == x[0];
      assert (x + y)[1..] == x[1..] + y;
      CountsAppend(x[1..], y);
    }
  }

  /** A curve of positive order is its four sub-curves with the turns
      60, -120, 60 and 0 between and after them. */
  lemma CurveUnfold(order: nat, size: real)
    requires order > 0
    ensures var c := Curve(order - 1, size / 3.0);
            (Curve(order, size)
             == c + [Turn(60)] + c + [Turn(-120)] + c + [Turn(60)] + c + [Turn(0)])
  {
    var o, s := order - 1, size / 3.0;
    var c := Curve(o, s);
    assert Angles[1..] == [-120, 60, 0];
    assert Angles[1..][1..] == [60, 0];
    assert Angles[1..][1..][1..] == [0];
    assert Angles[1..][1..][1..][1..] == [];
    assert Steps(o, s, [0]) == c + [Turn(0)];
    assert Steps(o, s, [60, 0]) == c + [Turn(60)] + c + [Turn(0)];
    assert Steps(o, s, [-120, 60, 0]) == c + [Turn(-120)] + c + [Turn(60)] + c + [Turn(0)];
  }

  /** The curve of order `n` draws 4^n segments, turns 4 (4^n - 1) / 3 times
      (never at order 0) and ends facing the way it started. */
  lemma {:induction false} CurveCounts(order: nat, size: real)
    ensures Forwards(Curve(order, size)) == Pow(4, order)
    ensures 3 * Turns(Curve(order, size)) == 4 * (Pow(4, order) - 1)
    ensures NetTurn(Curve(order, size)) == 0
    decreases order
  {
    if order > 0 {
      var c := Curve(order - 1, size / 3.0);
      CurveCounts(order - 1, size / 3.0);
      var r4 := [Turn(0)] + [];
      var r3 := [Turn(60)] + (c + r4);
      var r2 := [Turn(-120)] + (c + r3);
      var r1 := [Turn(60)] + (c + r2);
      assert Curve(order, size) == c + r1 by {
        CurveUnfold(order, size);
      }
      CountsThen(c, 0, []);
      CountsThen(c, 60, c + r4);
      CountsThen(c, -120, c + r3);
      CountsThen(c, 60, c + r2);
    }
  }

  /** The counts of some commands followed by a turn and more commands. */
  lemma CountsThen(c: seq<Command>, t: int, rest: seq<Command>)
    ensures Forwards(c + ([Turn(t)] + rest)) == Forwards(c) + Forwards(rest)
    ensures Turns(c + ([Turn(t)] + rest)) == Turns(c) + 1 + Turns(rest)
    ensures NetTurn(c + ([Turn(t)] + rest)) == NetTurn(c) + t + NetTurn(rest)
  {
    var tail := [Turn(t)] + rest;
    assert tail[1..] == rest;
    CountsAppend(c, tail);
  }

  /** Every move of the curve of order `n` over `size` has length
      size / 3^n. */
  lemma {:induction false} CurveSegmentLength(order: nat, size: real)
    ensures forall i :: 0 <= i < |Curve(order, size)| && Curve(order, size)[i].Forward? ==>
              Curve(order, size)[i].distance == size / (Pow(3, order) as real)
    decreases order
  {
    if order > 0 {
      var s := size / 3.0;
      var c := Curve(order - 1, s);
      CurveSegmentLength(order - 1, s);
      CurveUnfold(order, size);
      var p := Pow(3, order - 1) as real;
      assert s / p == size / (Pow(3, order) as real) by {
        assert Pow(3, order) as real == 3.0 * p;
        ThirdOfFraction(size, p);
      }
      var t := [Turn(60)] + c + [Turn(-120)] + c + [Turn(60)] + c + [Turn(0)];
      assert Curve(order, size) == c + t;
      forall i | 0 <= i < |c + t| && (c + t)[i].Forward?
        ensures (c + t)[i].distance == size / (Pow(3, order) as real)
      {
        if i >= |c| {
          MovesOfTail(c, i - |c|);
        }
      }
    }
  }

  lemma ThirdOfFraction(size: real, p: real)
    requires p >= 1.0
    ensures (size / 3.0) / p == size / (3.0 * p)
  {
  }

  /** The moves of the tail after a first sub-curve are moves of that same
      sub-curve. */
  lemma MovesOfTail(c: seq<Command>, j: nat)
    requires j < |[Turn(60)] + c + [Turn(-120)] + c + [Turn(60)] + c + [Turn(0)]|
    ensures var t := [Turn(60)] + c + [Turn(-120)] + c + [Turn(60)] + c + [Turn(0)];
            (t[j].Forward? ==> exists k :: 0 <= k < |c| && c[k] == t[j])
  {
  }

  /** The snowflake draws three curves, 3 * 4^n segments in all, and turns
      right a full circle, so it ends facing the way it started. */
  lemma SnowflakeCounts(order: nat)
    ensures Forwards(Snowflake(order)) == 3 * Pow(4, order)
    ensures NetTurn(Snowflake(order)) == -360
  {
    var c := Curve(order, Side);
    CurveCounts(order, Side);
    var side := c + [Turn(-120)];
    CountsAppend(c, [Turn(-120)]);
    assert Sides(order, Side, 1) == side + [];
    CountsAppend(side, []);
    assert Sides(order, Side, 2) == side + Sides(order, Side, 1);
    CountsAppend(side, Sides(order, Side, 1));
    assert Sides(order, Side, 3) == side + Sides(order, Side, 2);
    CountsAppend(side, Sides(order, Side, 2));
  }

  /** The drawer's entry point once the order is read: a negative order is
      refused and nothing is drawn; otherwise the snowflake's commands. */
  function DrawSnowflake(order: int): (r: Result<seq<Command>, OrderError>)
    ensures r.Failure? <==> order < 0
    ensures r.Success? ==> Forwards(r.value) == 3 * Pow(4, order) && NetTurn(r.value) == -360
  {
    if order < 0 then Failure(NegativeOrder)
    else
      SnowflakeCounts(order);
      Success(Snowflake(order))
  }

  /** Order 0 draws a triangle of three segments; order 1 draws twelve. */
  lemma SnowflakeExamples()
    ensures Forwards(Snowflake(0)) == 3
    ensures Forwards(Snowflake(1)) == 12
  {
    SnowflakeCounts(0);
    SnowflakeCounts(1);
  }

  /** The turtle's state: its position `a * E + b * W`, where `E` is the
      unit step along heading 0 and `W` the unit step 60 degrees to the left
      of it, and its heading in degrees, counterclockwise. */
  datatype Pose = Pose(a: real, b: real, heading: int)

  /** Which of the six unit steps a heading that is a multiple of 60
      degrees points along: 0 for `E`, 1 for `W`, then on counterclockwise. */
  function Direction(heading: int): int
  {
    (heading / 60) % 6
  }

  /** Turning by a multiple of 60 degrees moves the direction round by as
      many sixths. */
  lemma DirectionTurn(heading: int, t: int)
    requires heading % 60 == 0 && t % 60 == 0
    ensures (heading + t) % 60 == 0
    ensures Direction(heading + t) == (Direction(heading) + t / 60) % 6
  {
    var x, y := heading / 60, t / 60;
    assert heading == 60 * x && t == 60 * y;
    assert heading + t == 60 * (x + y);
    assert (heading + t) / 60 == x + y;
  }

  /** A unit step as its coordinates on `E` and `W`. */
  datatype Step = Step(e: int, w: int)

  /** The unit step of each direction: E, W, W - E, -E, -W and E - W. */
  function Unit(k: int): Step
  {
    if k == 0 then Step(1, 0)
    else if k == 1 then Step(0, 1)
    else if k == 2 then Step(-1, 1)
    else if k == 3 then Step(-1, 0)
    else if k == 4 then Step(0, -1)
    else Step(1, -1)
  }

  /** A forward move of `d` along the current heading. */
  function Move(p: Pose, d: real): (r: Pose)
    ensures r.heading == p.heading
  {
    var u := Unit(Direction(p.heading));
    p.(a := p.a + Times(u.e, d), b := p.b + Times(u.w, d))
  }

  /** `c * d` for a unit coefficient `c` of -1, 0 or 1. */
  function Times(c: int, d: real): real
  {
    if c == 1 then d else if c == -1 then -d else 0.0
  }

  function Rotate(p: Pose, t: int): Pose
  {
    p.(heading := p.heading + t)
  }

  /** Every turn is a multiple of 60 degrees. */
  predicate OnLattice(cmds: seq<Command>)
  {
    |cmds| == 0 || ((cmds[0].Turn? ==> cmds[0].degrees % 60 == 0) && OnLattice(cmds[1..]))
  }

  /** The turtle carrying out `cmds` from `p`. */
  function Run(cmds: seq<Command>, p: Pose): (r: Pose)
    requires p.heading % 60 == 0 && OnLattice(cmds)
    ensures r.heading == p.heading + NetTurn(cmds)
    ensures r.heading % 60 == 0
  {
    if |cmds| == 0 then p
    else
      match cmds[0]
      case Forward(d) => Run(cmds[1..], Move(p, d))
      case Turn(t) =>
        DirectionTurn(p.heading, t);
        Run(cmds[1..], Rotate(p, t))
  }

  lemma {:induction false} RunAppend(x: seq<Command>, y: seq<Command>, p: Pose)
    requires p.heading % 60 == 0 && OnLattice(x) && OnLattice(y)
    ensures OnLattice(x + y)
    ensures Run(x + y, p) == Run(y, Run(x, p))
    decreases |x|
  {
    if |x| == 0 {
      assert x + y == y;
    } else {
      assert (x + y)[0] == x[0];
      assert (x + y)[1..] == x[1..] + y;
      match x[0]
      case Forward(d) => RunAppend(x[1..], y, Move(p, d));
      case Turn(t) =>
        DirectionTurn(p.heading, t);
        RunAppend(x[1..], y, Rotate(p, t));
    }
  }

  lemma {:induction false} LatticeAppend(x: seq<Command>, y: seq<Command>)
    requires OnLattice(x) && OnLattice(y)
    ensures OnLattice(x + y)
    decreases |x|
  {
    if |x| == 0 {
      assert x + y == y;
    } else {
      assert (x + y)[0] == x[0];
      assert (x + y)[1..] == x[1..] + y;
      LatticeAppend(x[1..], y);
    }
  }

  /** The curve only ever turns by multiples of 60 degrees. */
  lemma {:induction false} CurveOnLattice(order: nat, size: real)
    ensures OnLattice(Curve(order, size))
    decreases order
  {
    if order > 0 {
      var c := Curve(order - 1, size / 3.0);
      CurveOnLattice(order - 1, size / 3.0);
      CurveUnfold(order, size);
      forall t | t % 60 == 0 ensures OnLattice([Turn(t)]) {
        assert [Turn(t)][1..] == [];
      }
      LatticeAppend(c, [Turn(60)]);
      LatticeAppend(c + [Turn(60)], c);
      LatticeAppend(c + [Turn(60)] + c, [Turn(-120)]);
      LatticeAppend(c + [Turn(60)] + c + [Turn(-120)], c);
      LatticeAppend(c + [Turn(60)] + c + [Turn(-120)] + c, [Turn(60)]);
      LatticeAppend(c + [Turn(60)] + c + [Turn(-120)] + c + [Turn(60)], c);
      LatticeAppend(c + [Turn(60)] + c + [Turn(-120)] + c + [Turn(60)] + c, [Turn(0)]);
    }
  }

  /** Four moves of `d` with the turns 60, -120, 60 and 0 between them end
      where one move of `3 d` ends, facing the same way. */
  lemma FourStrokes(p: Pose, d: real)
    requires p.heading % 60 == 0
    ensures Rotate(Move(Rotate(Move(Rotate(Move(Rotate(Move(p, d), 60), d), -120), d), 60), d), 0)
         == Move(p, 3.0 * d)
  {
    var h := p.heading;
    DirectionTurn(h, 60);
    DirectionTurn(h + 60, -120);
    DirectionTurn(h - 60, 60);
  }

  /** A Koch curve ends exactly where the straight segment it replaces ends,
      and faces the same way: the subdivision never changes the side it
      draws, only its shape. */
  lemma {:induction false} CurveDisplacement(order: nat, size: real, p: Pose)
    requires p.heading % 60 == 0
    ensures OnLattice(Curve(order, size))
    ensures Run(Curve(order, size), p) == Move(p, size)
    decreases order, 2
  {
    CurveOnLattice(order, size);
    if order == 0 {
      assert Curve(order, size)[1..] == [];
    } else {
      var d := size / 3.0;
      CurveStrokes(order, size, p);
      FourStrokes(p, d);
    }
  }

  /** Carrying out a curve of positive order is carrying out its four
      sub-curves as straight moves, with the turns between them. */
  lemma {:induction false} CurveStrokes(order: nat, size: real, p: Pose)
    requires order > 0 && p.heading % 60 == 0
    ensures OnLattice(Curve(order, size))
    ensures var d := size / 3.0;
            (Run(Curve(order, size), p)
             == Rotate(Move(Rotate(Move(Rotate(Move(Rotate(Move(p, d), 60), d), -120), d), 60), d), 0))
    decreases order, 1
  {
    var d := size / 3.0;
    var c := Curve(order - 1, d);
    var tail := c + ([Turn(60)] + (c + ([Turn(0)] + [])));
    assert Curve(order, size) == c + ([Turn(60)] + (c + ([Turn(-120)] + tail))) by {
      CurveUnfold(order, size);
    }
    var p2 := Rotate(Move(Rotate(Move(p, d), 60), d), -120);
    assert p2.heading % 60 == 0 by {
      DirectionTurn(p.heading, 60);
      DirectionTurn(p.heading + 60, -120);
    }
    var p4 := Rotate(Move(Rotate(Move(p2, d), 60), d), 0);
    assert p4.heading == p.heading;
    assert Run([], p4) == p4;
    TwoStrokes(order - 1, d, 60, 0, [], p2);
    TwoStrokes(order - 1, d, 60, -120, tail, p);
  }

  /** Two curves, each followed by its turn, act as two straight moves
      with those turns. */
  lemma {:induction false} TwoStrokes(order: nat, d: real, t1: int, t2: int, rest: seq<Command>, q: Pose)
    requires q.heading % 60 == 0 && t1 % 60 == 0 && t2 % 60 == 0 && OnLattice(rest)
    ensures OnLattice(Curve(order, d) + ([Turn(t1)] + (Curve(order, d) + ([Turn(t2)] + rest))))
    ensures Run(Curve(order, d) + ([Turn(t1)] + (Curve(order, d) + ([Turn(t2)] + rest))), q)
         == Run(rest, Rotate(Move(Rotate(Move(q, d), t1), d), t2))
    decreases order, 4
  {
    var q1 := Rotate(Move(q, d), t1);
    assert q1.heading % 60 == 0 by {
      DirectionTurn(q.heading, t1);
    }
    CurveThen(order, d, t2, rest, q1);
    CurveThen(order, d, t1, Curve(order, d) + ([Turn(t2)] + rest), q);
  }

  /** A curve followed by a turn and more commands: the curve acts as one
      straight move. */
  lemma {:induction false} CurveThen(order: nat, d: real, t: int, rest: seq<Command>, q: Pose)
    requires q.heading % 60 == 0 && t % 60 == 0 && OnLattice(rest)
    ensures OnLattice([Turn(t)] + rest)
    ensures OnLattice(Curve(order, d) + ([Turn(t)] + rest))
    ensures Run(Curve(order, d) + ([Turn(t)] + rest), q) == Run(rest, Rotate(Move(q, d), t))
    decreases order, 3
  {
    var tail := [Turn(t)] + rest;
    assert tail[1..] == rest;
    assert forall i :: 0 < i < |tail| ==> tail[i] == rest[i - 1];
    CurveDisplacement(order, d, q);
    RunAppend(Curve(order, d), tail, q);
    DirectionTurn(q.heading, t);
  }

  /** Three moves of `d`, each followed by a right turn of 120 degrees,
      bring the turtle back to where it started, having turned a full
      circle. */
  lemma Triangle(p: Pose, d: real)
    requires p.heading % 60 == 0
    ensures Rotate(Move(Rotate(Move(Rotate(Move(p, d), -120), d), -120), d), -120)
         == Rotate(p, -360)
  {
    DirectionTurn(p.heading, -120);
    DirectionTurn(p.heading - 120, -120);
  }

  /** The snowflake is a closed figure: the turtle ends where it started,
      facing the same way modulo a full circle. */
  lemma SnowflakeCloses(order: nat, p: Pose)
    requires p.heading % 60 == 0
    ensures OnLattice(Snowflake(order))
    ensures Run(Snowflake(order), p) == Rotate(p, -360)
    ensures Run(Snowflake(order), p).heading % 360 == p.heading % 360
  {
    SidesClose(order, Side, p);
  }

  /** Three sides of any length bring the turtle back to its start. */
  lemma SidesClose(order: nat, size: real, p: Pose)
    requires p.heading % 60 == 0
    ensures OnLattice(Sides(order, size, 3))
    ensures Run(Sides(order, size, 3), p) == Rotate(p, -360)
  {
    SidesStrokes(order, size, p);
    Triangle(p, size);
  }

  /** Carrying out three sides is three straight moves of `size`, each
      followed by the right turn. */
  lemma SidesStrokes(order: nat, size: real, p: Pose)
    requires p.heading % 60 == 0
    ensures OnLattice(Sides(order, size, 3))
    ensures Run(Sides(order, size, 3), p)
         == Rotate(Move(Rotate(Move(Rotate(Move(p, size), -120), size), -120), size), -120)
  {
    var q1 := Rotate(Move(p, size), -120);
    var q2 := Rotate(Move(q1, size), -120);
    assert q1.heading % 60 == 0 && q2.heading % 60 == 0 by {
      DirectionTurn(p.heading, -120);
      DirectionTurn(q1.heading, -120);
    }
    var s1, s2, s3 := Sides(order, size, 1), Sides(order, size, 2), Sides(order, size, 3);
    var c := Curve(order, size);
    assert s1 == c + ([Turn(-120)] + []) by {
      assert s1 == c + [Turn(-120)] + Sides(order, size, 0);
    }
    assert s2 == c + ([Turn(-120)] + s1);
    assert s3 == c + ([Turn(-120)] + s2);
    assert OnLattice(s1) && OnLattice(s2) && OnLattice(s3) by {
      CurveThen(order, size, -120, [], q2);
      CurveThen(order, size, -120, s1, q1);
      CurveThen(order, size, -120, s2, p);
    }
    assert Run(s3, p) == Run(s2, q1) by {
      CurveThen(order, size, -120, s2, p);
    }
    assert Run(s2, q1) == Run(s1, q2) by {
      CurveThen(order, size, -120, s1, q1);
    }
    assert Run(s1, q2) == Rotate(Move(q2, size), -120) by {
      CurveThen(order, size, -120, [], q2);
    }
  }
}

=== FILE: text.dfy ===
/** String helpers that mirror the few Python `str` methods the scripts use.
    Strings are sequences of Unicode scalar values, as Python's `str` is a
    sequence of code points, so `|s|` agrees with Python's `len(s)`. */
module Text {

  /** Python's `str.isspace`, restricted to the ASCII range: space, the
      control characters tab through carriage return, and the four
      information separators 0x1C through 0x1F. */
  predicate IsSpace(c: char) {
    c == ' ' || ('\t' <= c <= '\r') || ('\U{1C}' <= c <= '\U{1F}')
  }

  /** `str.lower` on ASCII letters; every other character is kept. */
  function LowerChar(c: char): (r: char)
    ensures 'A' <= c <= 'Z' ==> 'a' <= r <= 'z' && r as int == c as int + 32
    ensures !('A' <= c <= 'Z') ==> r == c
  {
    if 'A' <= c <= 'Z' then (c as int + 32) as char else c
  }

  function Lower(s: string): string
  {
    seq(|s|, i requires 0 <= i < |s| => LowerChar(s[i]))
  }

  /** `n` copies of `c`, as Python's `c * n`. */
  function Repeat(c: char, n: nat): (r: string)
    ensures |r| == n
    ensures forall i :: 0 <= i < n ==> r[i] == c
  {
    seq(n, _ => c)
  }

  /** Python's `s.ljust(width)`: pad with spaces on the right up to `width`. */
  function LJust(s: string, width: nat): (r: string)
    ensures |r| == if |s| < width then width else |s|
    ensures r[..|s|] == s
    ensures forall i :: |s| <= i < |r| ==> r[i] == ' '
  {
    if |s| < width then s + Repeat(' ', width - |s|) else s
  }

  /** Index of the last occurrence of `c` in `s`, or -1 when there is none
      (Python's `str.rfind`). */
  function LastIndexOf(s: string, c: char): int
  {
    if |s| == 0 then -1
    else if s[|s| - 1] == c then |s| - 1
    else LastIndexOf(s[..|s| - 1], c)
  }

  /** `LastIndexOf` finds an occurrence of `c` with none after it, and
      reports -1 only when `c` does not occur at all. */
  lemma {:induction false} LastIndexOfSpec(s: string, c: char)
    ensures -1 <= LastIndexOf(s, c) < |s|
    ensures LastIndexOf(s, c) >= 0 ==> s[LastIndexOf(s, c)] == c
    ensures forall k :: LastIndexOf(s, c) < k < |s| ==> s[k] != c
    decreases |s|
  {
    if |s| > 0 && s[|s| - 1] != c {
      LastIndexOfSpec(s[..|s| - 1], c);
    }
  }

  /** Python's `s.lstrip(c)`: drop every leading `c`. */
  function TrimStart(s: string, c: char): string
  {
    if |s| > 0 && s[0] == c then TrimStart(s[1..], c) else s
  }

  /** `TrimStart` removes a run of `c` from the front and stops at the
      first other character. */
  lemma {:induction false} TrimStartSpec(s: string, c: char)
    ensures |TrimStart(s, c)| <= |s| && TrimStart(s, c) == s[|s| - |TrimStart(s, c)|..]
    ensures forall k :: 0 <= k < |s| - |TrimStart(s, c)| ==> s[k] == c
    ensures |TrimStart(s, c)| > 0 ==> TrimStart(s, c)[0] != c
    decreases |s|
  {
    if |s| > 0 && s[0] == c {
      TrimStartSpec(s[1..], c);
    }
  }

  /** Number of whitespace characters at the start of `s`. */
  function LeadingSpace(s: string): (n: nat)
    ensures n <= |s|
    ensures forall k :: 0 <= k < n ==> IsSpace(s[k])
    ensures n < |s| ==> !IsSpace(s[n])
  {
    if |s| > 0 && IsSpace(s[0]) then 1 + LeadingSpace(s[1..]) else 0
  }

  /** Number of whitespace characters at the end of `s`. */
  function TrailingSpace(s: string): (n: nat)
    ensures n <= |s|
    ensures forall k :: |s| - n <= k < |s| ==> IsSpace(s[k])
    ensures n < |s| ==> !IsSpace(s[|s| - 1 - n])
  {
    if |s| > 0 && IsSpace(s[|s| - 1]) then 1 + TrailingSpace(s[..|s| - 1]) else 0
  }

  /** Python's `s.strip()`: the longest slice of `s` that neither starts nor
      ends with whitespace, once the whitespace around it is removed. */
  function Strip(s: string): (r: string)
    ensures |r| > 0 ==> !IsSpace(r[0]) && !IsSpace(r[|r| - 1])
    ensures LeadingSpace(s) + |r| <= |s| && r == s[LeadingSpace(s)..LeadingSpace(s) + |r|]
    ensures forall k :: LeadingSpace(s) + |r| <= k < |s| ==> IsSpace(s[k])
    ensures (|s| == 0 || (!IsSpace(s[0]) && !IsSpace(s[|s| - 1]))) ==> r == s
  {
    var i := LeadingSpace(s);
    var t := s[i..];
    var j := TrailingSpace(t);
    assert t[..|t| - j] == s[i..i + (|t| - j)];
    t[..|t| - j]
  }

  /** Python's `s.split(sep)` for a one-character separator: the maximal
      separator-free pieces, always at least one (`"".split(sep) == [""]`). */
  function Split(s: string, sep: char): (r: seq<string>)
    ensures |r| >= 1
    ensures forall i :: 0 <= i < |r| ==> sep !in r[i]
  {
    if |s| == 0 then [""]
    else
      var rest := Split(s[1..], sep);
      if s[0] == sep then [""] + rest
      else [[s[0]] + rest[0]] + rest[1..]
  }

  /** Python's `sep.join(parts)`. */
  function Join(parts: seq<string>, sep: char): string
  {
    if |parts| == 0 then ""
    else if |parts| == 1 then parts[0]
    else parts[0] + [sep] + Join(parts[1..], sep)
  }

  /** Splitting a separator-free piece followed by more text yields that
      piece first. */
  lemma {:induction false} SplitPiece(a: string, sep: char, b: string)
    requires sep !in a
    ensures Split(a + [sep] + b, sep) == [a] + Split(b, sep)
    ensures Split(a, sep) == [a]
    decreases |a|
  {
    if |a| == 0 {
      assert a + [sep] + b == [sep] + b;
      assert ([sep] + b)[1..] == b;
    } else {
      SplitPiece(a[1..], sep, b);
      assert (a + [sep] + b)[1..] == a[1..] + [sep] + b;
      assert [a[0]] + a[1..] == a;
    }
  }

  /** Splitting undoes joining, as long as no part contains the separator
      and there is at least one part. */
  lemma {:induction false} SplitJoin(parts: seq<string>, sep: char)
    requires |parts| >= 1
    requires forall i :: 0 <= i < |parts| ==> sep !in parts[i]
    ensures Split(Join(parts, sep), sep) == parts
    decreases |parts|
  {
    if |parts| == 1 {
      SplitPiece(parts[0], sep, "");
    } else {
      SplitJoin(parts[1..], sep);
      SplitPiece(parts[0], sep, Join(parts[1..], sep));
      assert [parts[0]] + parts[1..] == parts;
    }
  }

  /** Joining undoes splitting. */
  lemma {:induction false} JoinSplit(s: string, sep: char)
    ensures Join(Split(s, sep), sep) == s
    decreases |s|
  {
    if |s| > 0 {
      JoinSplit(s[1..], sep);
      var rest := Split(s[1..], sep);
      if s[0] == sep {
        assert ([""] + rest)[1..] == rest;
      } else {
        var p := [[s[0]] + rest[0]] + rest[1..];
        assert p[1..] == rest[1..];
        if |rest| > 1 {
          assert rest == [rest[0]] + rest[1..];
        }
      }
    }
  }

  /** Lexicographic order on code points, the order Python's `<=` uses on
      strings. */
  predicate LexLe(a: string, b: string)
  {
    |a| == 0 || (|b| > 0 && (a[0] < b[0] || (a[0] == b[0] && LexLe(a[1..], b[1..]))))
  }

  /** Any two strings are comparable. */
  lemma {:induction false} LexLeTotal(a: string, b: string)
    ensures LexLe(a, b) || LexLe(b, a)
    decreases |a|
  {
    if |a| > 0 && |b| > 0 && a[0] == b[0] {
      LexLeTotal(a[1..], b[1..]);
    }
  }
}

=== FILE: tree_view.dfy ===
/** The tree listing printed after sorting: one line per entry, siblings in
    name order, each line drawn with box connectors under the prefix its
    parent hands down. The listing is returned instead of printed. */
module TreeView {
  import opened Text
  import opened FileTree

  const Tee := "├── "
  const Elbow := "└── "
  const Pipe := "│   "
  const Blank := "    "

  /** The connector of a sibling: only the last one closes the branch. */
  function Connector(last: bool): string
  {
    if last then Elbow else Tee
  }

  /** What a sibling hands down to its children: a continuing rail unless it
      is the last one. */
  function Indent(last: bool): string
  {
    if last then Blank else Pipe
  }

  /** Entries in a subtree, the subtree's root included. */
  function Entries(n: Node): nat
    decreases n
  {
    1 + if n.Dir? then EntriesIn(n.children) else 0
  }

  function EntriesIn(s: seq<Node>): nat
    decreases s
  {
    if |s| == 0 then 0 else Entries(s[0]) + EntriesIn(s[1..])
  }

  lemma {:induction false} EntriesInAppend(a: seq<Node>, b: seq<Node>)
    ensures EntriesIn(a + b) == EntriesIn(a) + EntriesIn(b)
    decreases |a|
  {
    if |a| == 0 {
      assert a + b == b;
    } else {
      assert (a + b)[0] == a[0];
      assert (a + b)[1..] == a[1..] + b;
      EntriesInAppend(a[1..], b);
    }
  }

  predicate SortedByName(s: seq<Node>)
  {
    forall i :: 0 < i < |s| ==> LexLe(s[i - 1].name, s[i].name)
  }

  /** Insert `x` into a name-sorted listing. */
  function Insert(x: Node, s: seq<Node>): (r: seq<Node>)
    requires SortedByName(s)
    ensures |r| == |s| + 1
    ensures SortedByName(r)
    ensures multiset(r) == multiset(s) + multiset{x}
    ensures EntriesIn(r) == Entries(x) + EntriesIn(s)
    ensures r[0] == x || (|s| > 0 && r[0] == s[0])
  {
    if |s| == 0 then [x]
    else if LexLe(x.name, s[0].name) then [x] + s
    else
      var t := Insert(x, s[1..]);
      InsertLater(x, s, t);
      [s[0]] + t
  }

  /** The step of `Insert` past a head that sorts before `x`. */
  lemma InsertLater(x: Node, s: seq<Node>, t: seq<Node>)
    requires |s| > 0 && SortedByName(s) && !LexLe(x.name, s[0].name)
    requires |t| == |s| && SortedByName(t)
    requires multiset(t) == multiset(s[1..]) + multiset{x}
    requires EntriesIn(t) == Entries(x) + EntriesIn(s[1..])
    requires t[0] == x || (|s| > 1 && t[0] == s[1])
    ensures SortedByName([s[0]] + t)
    ensures multiset([s[0]] + t) == multiset(s) + multiset{x}
    ensures EntriesIn([s[0]] + t) == Entries(x) + EntriesIn(s)
  {
    LexLeTotal(x.name, s[0].name);
    assert LexLe(s[0].name, t[0].name);
    assert s == [s[0]] + s[1..];
    assert ([s[0]] + t)[1..] == t;
  }

  /** Python's `sorted` on the entries of one directory: they are compared by
      name. */
  function SortByName(s: seq<Node>): (r: seq<Node>)
    ensures SortedByName(r)
    ensures multiset(r) == multiset(s)
    ensures EntriesIn(r) == EntriesIn(s)
  {
    if |s| == 0 then []
    else
      assert s == [s[0]] + s[1..];
      Insert(s[0], SortByName(s[1..]))
  }

  /** Every directory of the subtree lists its children in name order. */
  predicate DeepSorted(n: Node)
    decreases n
  {
    n.Dir? ==> SortedByName(n.children) && forall i :: 0 <= i < |n.children| ==> DeepSorted(n.children[i])
  }

  /** The subtree as the listing visits it: every directory's children put
      in name order, at every depth. Names, kinds and sizes are kept. */
  function Arrange(n: Node): (r: Node)
    ensures r.name == n.name && r.Dir? == n.Dir? && r.File? == n.File?
    ensures Entries(r) == Entries(n)
    ensures DeepSorted(r)
    decreases n
  {
    match n
    case Dir(name, kids) =>
      var items := ArrangeAll(kids);
      var sorted := SortByName(items);
      assert forall i :: 0 <= i < |sorted| ==> sorted[i] in multiset(items);
      Dir(name, sorted)
    case _ => n
  }

  function ArrangeAll(kids: seq<Node>): (r: seq<Node>)
    ensures |r| == |kids|
    ensures forall i :: 0 <= i < |r| ==> r[i] == Arrange(kids[i])
    ensures forall i :: 0 <= i < |r| ==> r[i].name == kids[i].name && r[i].Dir? == kids[i].Dir?
    ensures forall i :: 0 <= i < |r| ==> DeepSorted(r[i])
    ensures EntriesIn(r) == EntriesIn(kids)
    decreases kids
  {
    if |kids| == 0 then []
    else [Arrange(kids[0])] + ArrangeAll(kids[1..])
  }

  /** An entry of a subtree: where it sits, and what kind it is. `at` uses
      the walk's `SrcFile` only as a location, a folder path and a name; the
      entry may be a directory, a special file or a destination entry. */
  datatype Entry = Entry(at: SrcFile, isDir: bool, isFile: bool)

  /** Every entry of a subtree, the root included, in depth-first order;
      `dir` is the path of the directory holding `n`. */
  function Paths(n: Node, dir: seq<string>): seq<Entry>
    decreases n
  {
    [Entry(SrcFile(dir, n.name), n.Dir?, n.File?)]
      + if n.Dir? then PathsIn(n.children, dir + [n.name]) else []
  }

  function PathsIn(kids: seq<Node>, dir: seq<string>): seq<Entry>
    decreases kids
  {
    if |kids| == 0 then [] else Paths(kids[0], dir) + PathsIn(kids[1..], dir)
  }

  /** Inserting a sibling adds exactly its subtree's entries. */
  lemma {:induction false} InsertPaths(x: Node, s: seq<Node>, dir: seq<string>)
    requires SortedByName(s)
    ensures multiset(PathsIn(Insert(x, s), dir)) == multiset(Paths(x, dir)) + multiset(PathsIn(s, dir))
    decreases |s|
  {
    if |s| == 0 {
      PathsCons(x, s, dir);
    } else if LexLe(x.name, s[0].name) {
      PathsCons(x, s, dir);
    } else {
      var t := Insert(x, s[1..]);
      assert Insert(x, s) == [s[0]] + t;
      PathsCons(s[0], t, dir);
      assert s == [s[0]] + s[1..];
      PathsCons(s[0], s[1..], dir);
      InsertPaths(x, s[1..], dir);
      ShiftedPaths(Paths(s[0], dir), Paths(x, dir), PathsIn(t, dir), PathsIn(s[1..], dir));
    }
  }

  /** Putting the same entries in front of two listings keeps the one
      being the other plus some extra entries. */
  lemma ShiftedPaths(h: seq<Entry>, extra: seq<Entry>, a: seq<Entry>, b: seq<Entry>)
    requires multiset(a) == multiset(extra) + multiset(b)
    ensures multiset(h + a) == multiset(extra) + multiset(h + b)
  {
  }

  lemma PathsCons(h: Node, t: seq<Node>, dir: seq<string>)
    ensures PathsIn([h] + t, dir) == Paths(h, dir) + PathsIn(t, dir)
  {
    assert ([h] + t)[1..] == t;
  }

  /** Sorting siblings keeps the entries of their subtrees. */
  lemma {:induction false} SortPaths(s: seq<Node>, dir: seq<string>)
    ensures multiset(PathsIn(SortByName(s), dir)) == multiset(PathsIn(s, dir))
    decreases |s|
  {
    if |s| > 0 {
      SortPaths(s[1..], dir);
      InsertPaths(s[0], SortByName(s[1..]), dir);
    }
  }

  /** Arranging a subtree moves no entry: every entry keeps its location,
      name and kind, and none is added or lost, at any depth. */
  lemma {:induction false} ArrangePaths(n: Node, dir: seq<string>)
    ensures multiset(Paths(Arrange(n), dir)) == multiset(Paths(n, dir))
    decreases n
  {
    if n.Dir? {
      var inner := dir + [n.name];
      var items := ArrangeAll(n.children);
      ArrangeAllPaths(n.children, inner);
      SortPaths(items, inner);
    }
  }

  lemma {:induction false} ArrangeAllPaths(kids: seq<Node>, dir: seq<string>)
    ensures multiset(PathsIn(ArrangeAll(kids), dir)) == multiset(PathsIn(kids, dir))
    decreases kids
  {
    if |kids| > 0 {
      var r := ArrangeAll(kids);
      assert r[1..] == ArrangeAll(kids[1..]);
      ArrangePaths(kids[0], dir);
      ArrangeAllPaths(kids[1..], dir);
    }
  }

  /** The siblings the listing draws hold exactly the entries below the
      directory: the same locations, names and kinds, each as often. */
  lemma ListingPaths(kids: seq<Node>, dir: seq<string>)
    ensures multiset(PathsIn(Listing(kids), dir)) == multiset(PathsIn(kids, dir))
  {
    ArrangeAllPaths(kids, dir);
    SortPaths(ArrangeAll(kids), dir);
  }

  /** The lines for a sequence of siblings, in the given order, under
      `prefix`: one line per entry of their subtrees. */
  function Lines(items: seq<Node>, prefix: string): (r: seq<string>)
    ensures |r| == EntriesIn(items)
    decreases items
  {
    if |items| == 0 then []
    else
      var last := |items| == 1;
      [prefix + Connector(last) + items[0].name]
        + Nested(items[0], prefix + Indent(last))
        + Lines(items[1..], prefix)
  }

  /** The lines under an entry: its subtree when it is a directory. */
  function Nested(n: Node, prefix: string): (r: seq<string>)
    ensures |r| == Entries(n) - 1
    decreases n
  {
    if n.Dir? then Lines(n.children, prefix) else []
  }

  /** The siblings of a directory in the order the listing shows them. */
  function Listing(kids: seq<Node>): (r: seq<Node>)
    ensures SortedByName(r)
    ensures multiset(r) == multiset(ArrangeAll(kids))
    ensures forall i :: 0 <= i < |r| ==> DeepSorted(r[i])
  {
    var items := ArrangeAll(kids);
    var sorted := SortByName(items);
    assert forall i :: 0 <= i < |sorted| ==> sorted[i] in multiset(items);
    sorted
  }

  /** The listing of a directory whose entries are `kids`, each line
      starting with `prefix`: one line per entry below the directory. */
  function PrintTree(kids: seq<Node>, prefix: string): (r: seq<string>)
    ensures |r| == EntriesIn(kids)
    ensures forall i :: 0 <= i < |r| ==> prefix <= r[i]
  {
    LinesStartWithPrefix(Listing(kids), prefix);
    Lines(Listing(kids), prefix)
  }

  /** Every line drawn for a list of siblings starts with the prefix the
      caller passed down. */
  lemma {:induction false} LinesStartWithPrefix(items: seq<Node>, prefix: string)
    ensures forall i :: 0 <= i < |Lines(items, prefix)| ==> prefix <= Lines(items, prefix)[i]
    decreases items
  {
    if |items| > 0 {
      var last := |items| == 1;
      var inner := prefix + Indent(last);
      var head := [prefix + Connector(last) + items[0].name];
      var sub := Nested(items[0], inner);
      var rest := Lines(items[1..], prefix);
      assert Lines(items, prefix) == head + sub + rest;
      NestedStartWithPrefix(items[0], inner);
      LinesStartWithPrefix(items[1..], prefix);
      forall j | 0 <= j < |sub| ensures prefix <= sub[j] {
        assert inner <= sub[j];
        assert sub[j][..|prefix|] == inner[..|prefix|];
      }
    }
  }

  lemma {:induction false} NestedStartWithPrefix(n: Node, prefix: string)
    ensures forall i :: 0 <= i < |Nested(n, prefix)| ==> prefix <= Nested(n, prefix)[i]
    decreases n
  {
    if n.Dir? {
      LinesStartWithPrefix(n.children, prefix);
    }
  }

  /** Index of the line of sibling `i`: the entries before it come first. */
  function Offset(items: seq<Node>, i: nat): nat
    requires i <= |items|
  {
    EntriesIn(items[..i])
  }

  /** The offsets of a list and of its tail differ by the first subtree. */
  lemma OffsetTail(items: seq<Node>, i: nat)
    requires 0 < i <= |items|
    ensures Offset(items, i) == Entries(items[0]) + Offset(items[1..], i - 1)
  {
    assert items[..i] == [items[0]] + items[1..][..i - 1];
    EntriesInAppend([items[0]], items[1..][..i - 1]);
    assert [items[0]][1..] == [];
  }

  /** Consecutive offsets are one subtree apart. */
  lemma OffsetNext(items: seq<Node>, i: nat)
    requires i < |items|
    ensures Offset(items, i + 1) == Offset(items, i) + Entries(items[i])
  {
    assert items[..i + 1] == items[..i] + [items[i]];
    EntriesInAppend(items[..i], [items[i]]);
    assert [items[i]][1..] == [];
  }

  /** Sibling `i` gets the line `prefix + connector + name`, where the
      connector is `└── ` exactly when `i` is the last index and `├── `
      otherwise; right after it come the lines of its subtree, drawn under
      the prefix extended by four spaces for the last sibling and by `│   `
      for the others. */
  lemma {:induction false} SiblingLine(items: seq<Node>, prefix: string, i: nat)
    requires i < |items|
    ensures Offset(items, i) < Offset(items, i + 1) <= |Lines(items, prefix)|
    ensures Lines(items, prefix)[Offset(items, i)]
         == prefix + Connector(i == |items| - 1) + items[i].name
    ensures Lines(items, prefix)[Offset(items, i) + 1..Offset(items, i + 1)]
         == Nested(items[i], prefix + Indent(i == |items| - 1))
    decreases i, 1
  {
    if i == 0 {
      FirstSiblingLine(items, prefix);
    } else {
      LaterSiblingLine(items, prefix, i);
    }
  }

  lemma FirstSiblingLine(items: seq<Node>, prefix: string)
    requires 0 < |items|
    ensures Offset(items, 0) < Offset(items, 1) <= |Lines(items, prefix)|
    ensures Lines(items, prefix)[Offset(items, 0)]
         == prefix + Connector(0 == |items| - 1) + items[0].name
    ensures Lines(items, prefix)[Offset(items, 0) + 1..Offset(items, 1)]
         == Nested(items[0], prefix + Indent(0 == |items| - 1))
  {
    var r := Lines(items, prefix);
    var last := |items| == 1;
    var head := [prefix + Connector(last) + items[0].name] + Nested(items[0], prefix + Indent(last));
    assert r == head + Lines(items[1..], prefix);
    OffsetNext(items, 0);
    assert items[..0] == [];
    assert r[1..Entries(items[0])] == head[1..];
  }

  /** The step of `SiblingLine` from the tail of the list to the list. */
  lemma {:induction false} LaterSiblingLine(items: seq<Node>, prefix: string, i: nat)
    requires 0 < i < |items|
    ensures Offset(items, i) < Offset(items, i + 1) <= |Lines(items, prefix)|
    ensures Lines(items, prefix)[Offset(items, i)]
         == prefix + Connector(i == |items| - 1) + items[i].name
    ensures Lines(items, prefix)[Offset(items, i) + 1..Offset(items, i + 1)]
         == Nested(items[i], prefix + Indent(i == |items| - 1))
    decreases i, 0
  {
    var tail := items[1..];
    var isLast := i == |items| - 1;
    assert tail[i - 1] == items[i];
    assert (i - 1 == |tail| - 1) == isLast;
    SiblingLine(tail, prefix, i - 1);
    var last := |items| == 1;
    var head := [prefix + Connector(last) + items[0].name] + Nested(items[0], prefix + Indent(last));
    assert Lines(items, prefix) == head + Lines(tail, prefix);
    OffsetTail(items, i);
    OffsetTail(items, i + 1);
    ShiftedSlice(Lines(items, prefix), head, Lines(tail, prefix),
                 Offset(tail, i - 1), Offset(tail, i), Offset(items, i), Offset(items, i + 1),
                 prefix + Connector(isLast) + items[i].name,
                 Nested(items[i], prefix + Indent(isLast)));
  }

  /** A line and the slice after it keep their contents when a head of
      known length is put in front of the lines they sit in. */
  lemma ShiftedSlice(r: seq<string>, head: seq<string>, rest: seq<string>,
                     a: nat, b: nat, a': nat, b': nat, line: string, after: seq<string>)
    requires r == head + rest
    requires a < b <= |rest| && a' == |head| + a && b' == |head| + b
    requires rest[a] == line && rest[a + 1..b] == after
    ensures a' < b' <= |r| && r[a'] == line && r[a' + 1..b'] == after
  {
    assert r[a' + 1..b'] == rest[a + 1..b];
  }
}

=== FILE: wrappers.dfy ===
/** Optional values and success-or-error results shared by the two scripts' models. */
module Wrappers {

  /** A value that may be absent, such as a path that does not exist. */
  datatype Option<+T> = None | Some(value: T)

  /** Either the computed value or the reason the script stopped. */
  datatype Result<+T, +E> = Success(value: T) | Failure(error: E)
}
